=== FILE: README.md ===
# Mower simulator, modelled in Dafny

A model of the core of the lawn-mower simulator (`mower-project`). A lawn is
a rectangle of grid points `0 <= x <= width`, `0 <= y <= height`. A mower has
a position and an orientation `N`, `E`, `S` or `W`. It obeys the instruction
letters `R` (quarter turn right), `L` (quarter turn left) and `F` (one step
forward). The runner reads three things:

- the lawn line `"<width> <height>"`;
- for each mower, a header line `"<x> <y> <orientation>"`;
- for each mower, an instruction line.

It rejects a negative lawn bound and a mower that starts off the lawn. Any
step that would leave the lawn is undone and the loop goes on. The result is
the final mowers, in input order.

Modules:

- `Results` (results.dfy): the `Option` and `Result` wrappers.
- `Model` (model.dfy): the mower agent from `mower.go`.
  - Go `int` is a 64-bit `newtype`, and `++`/`--` wrap around explicitly.
  - The orientation string is either one of the four letters or
    `Other(text)`. Any other string is kept verbatim, and every operation
    leaves such a mower unchanged, as the Go `switch` statements do. A
    mower's orientation never wraps one of the four letters in `Other`.
- `Fmt` (fmt.dfy): the part of Go's `fmt` scanning the runner relies on.
  - `%d` skips white space, takes an optional sign and one or more digits,
    and fails outside the int64 range.
  - A space in the format needs at least one input space, or the end of
    the input.
  - A failed verb leaves the variables it did not reach at 0.
  - A printer `FormatInt` is the partner of the scanner for round-trip
    laws.
- `Blocks` (blocks.dfy): the loop shape of `Execute`, generic in the
  per-mower operation.
  - Lines are taken two at a time: a header, then its instructions.
  - A trailing header with no instruction line gets `""`, which is what
    `Scanner.Text()` returns after the second `Scan` fails.
  - The first error ends the run and no partial list is returned.
- `Service` (service.dfy): `readLawnDimensions`, `ProcessMower` and
  `Execute` from `run.go`.
  - The input file comes in as the lawn line plus the later lines, already
    split the way `bufio.Scanner` splits them.
  - Slicing a header shorter than five bytes makes Go panic. The model
    turns that panic into the error `SliceOutOfRange`, which also ends the
    run. The model counts characters, not bytes, so it agrees with Go on
    headers whose first five bytes are ASCII (see "Left out").
- `Scenarios` (scenarios.dfy): the outcomes the repository's tests expect,
  derived from the model. It also covers three edge cases of the header
  format:
  - The orientation is read at index 4 whatever the width of the numbers.
    `"10 2 N"` therefore gives orientation `" "`, and that mower ignores
    every instruction.
  - A header shorter than five characters gives `SliceOutOfRange`.
  - A trailing header with no instruction line stays where it starts.

The comment at `run.go:102` says the loop breaks. The code `continue`s, and
the model follows the code: after a dropped step, the later instructions
still run (`Service.FollowContinuesAfterEscape`).

## Model

| member | source | states |
|---|---|---|
| Model.TurnRight | internal/domain/model/mower.go:21-33 | position unchanged; a cardinal heading advances one quarter clockwise (N→E→S→W→N); any other orientation string leaves the mower as it is |
| Model.TurnLeft | internal/domain/model/mower.go:35-47 | position unchanged; a cardinal heading moves one quarter counter-clockwise; any other orientation string leaves the mower as it is |
| Model.MoveForward | internal/domain/model/mower.go:49-61 | orientation kept; x and y change by the unit displacement of the heading, reduced modulo 2^64 into the int64 range as Go's `++`/`--` do |
| Model.MoveBackward | internal/domain/model/mower.go:63-75 | orientation kept; x and y change by minus the unit displacement of the heading, with 64-bit wrap-around |
| Model.Move | internal/domain/model/mower.go:9-19 | only `"F"` can change the position; only `"R"`/`"L"` can change the orientation; any other instruction is a no-op |
| Model.MoveDispatch | internal/domain/model/mower.go:10-19 | `"R"`, `"L"` and `"F"` dispatch to TurnRight, TurnLeft and MoveForward |
| Model.TurnRightTable | internal/domain/model/mower.go:23-32 | the clockwise successor of each of the four letters, at any position |
| Model.TurnsAreInverse | internal/domain/model/mower.go:21-47 | TurnLeft undoes TurnRight and TurnRight undoes TurnLeft, for every mower |
| Model.FourTurnsIdentity | internal/domain/model/mower.go:21-47 | four right turns, and four left turns, give back the same mower |
| Model.MovesAreInverse | internal/domain/model/mower.go:63-75 | MoveBackward reverts MoveForward (its documented purpose) and the other way round, also across the int64 wrap |
| Model.ForwardIsUnitStep | internal/domain/model/mower.go:51-60 | away from the int64 extremes, N is y+1, E is x+1, S is y-1 and W is x-1, the other coordinate unchanged |
| Model.OtherIsInert | internal/domain/model/mower.go:10-75 | with an orientation string other than the four letters, every operation leaves the mower unchanged |
| Model.ParseOrientation | internal/interface/service/run.go:91 | the orientation read from a one-character string prints back as that string, and `Other` is used only for strings that are not one of N, E, S, W |
| Model.ParseOrientationRoundTrip | internal/interface/service/run.go:91 | reading the text of a well-formed orientation gives the same orientation |
| Fmt.ScanInt | internal/interface/service/run.go:64 | one `%d` consumes at least one character, and on success takes the longest run of digits: what it leaves does not start with a digit |
| Fmt.ScanPair | internal/interface/service/run.go:92 | the values `"%d %d"` leaves in x and y, both starting at 0: a failed first verb leaves both at 0, otherwise x is the first number, and y stays 0 when no white space follows the first number |
| Fmt.ScanIntNeedsDigits | internal/interface/service/run.go:92 | text whose first character is neither white space nor a digit, and is not a sign followed by a digit, is a failed `%d`, and both variables stay 0 |
| Fmt.ScanIntRejectsOverflow | internal/interface/service/run.go:64 | a number outside the int64 range is a failed `%d`, and both variables stay 0 |
| Fmt.ScanPairNeedsSeparator | internal/interface/service/run.go:92 | when the first number is followed directly by a character that is neither white space nor a digit, x is read and y stays 0 |
| Fmt.ScanPairWithoutSecond | internal/interface/service/run.go:92 | when no number follows the separating space, x is read and y stays 0 |
| Fmt.ScanFormatRoundTrip | internal/interface/service/run.go:92 | one `%d` reads back exactly the int64 that `%d` printed, and stops before the next non-digit |
| Fmt.ScanPairRoundTrip | internal/interface/service/run.go:92 | `"%d %d"` reads back the two int64 values printed with one space between them, whatever non-digit text follows |
| Service.ReadLawnDimensions | internal/interface/service/run.go:61-75 | succeeds exactly when both scanned bounds are non-negative (zero is accepted); the lawn holds the scanned pair; any failure is WrongLawnDimensions |
| Service.UnreadableLawnLine | internal/interface/service/run.go:63-69 | a lawn line whose first character is neither white space nor a digit, and is not a sign followed by a digit, is not an error: the scan error is ignored and the lawn is 0 by 0 |
| Service.ReadLawnRoundTrip | internal/interface/service/run.go:64-74 | a printed lawn line reads back as that lawn, or as WrongLawnDimensions when a bound is negative |
| Service.Step | internal/interface/service/run.go:98-105 | one loop turn keeps a mower on the lawn and leaves a non-cardinal mower unchanged; its orientation is that of the plain instruction |
| Service.StepDiscardsEscapes | internal/interface/service/run.go:98-105 | from a position on the lawn, a turn is applied as is, and a forward step is applied only when it stays on the lawn, otherwise dropped |
| Service.Follow | internal/interface/service/run.go:98-106 | folding the instructions keeps a mower that starts on the lawn on the lawn, and preserves whether the orientation is cardinal |
| Service.FollowMatchesPlan | internal/interface/service/run.go:98-106 | from a position on the lawn, the loop equals the fold of the independent one-step description |
| Service.FollowAppend | internal/interface/service/run.go:98-106 | following `a + b` is following `a`, then `b` from where `a` ended |
| Service.FollowContinuesAfterEscape | internal/interface/service/run.go:101-105 | a forward step off the lawn is dropped and the remaining instructions still run (continue, not break) |
| Service.InitialMower | internal/interface/service/run.go:91-92 | x and y are the `"%d %d"` scan of the header, and the orientation text is the header's character at index 4 |
| Service.SingleDigitHeader | internal/interface/service/run.go:91-92 | a header `"<x> <y> <letter>"` with single-digit coordinates yields exactly that mower |
| Service.ProcessMower | internal/interface/service/run.go:90-109 | SliceOutOfRange exactly when the header is shorter than 5; WrongMowerInitPosition exactly when the start is off the lawn; success exactly when the header has at least 5 characters and the start is on the lawn, and then the instructions folded over the start, which ends on the lawn |
| Blocks.ProcessAll | internal/interface/service/run.go:39-57 | a successful run has one value per (header, instructions) block |
| Blocks.ProcessAllSucceeds | internal/interface/service/run.go:39-57 | the run succeeds if and only if every block succeeds |
| Blocks.ProcessAllInOrder | internal/interface/service/run.go:39-57 | the k-th value is the outcome of the k-th block, so input order is kept |
| Blocks.ProcessAllFirstError | internal/interface/service/run.go:51-54 | a failed run returns the error of the first failing block, every earlier block having succeeded |
| Service.Run | internal/interface/service/run.go:26-57 | a rejected lawn line fails the run with WrongLawnDimensions; on success there is one mower per block |
| Service.Execute | internal/interface/service/run.go:14-58 | the imperative loop over the lines computes exactly Run |
| Service.RunKeepsOrderAndBounds | internal/interface/service/run.go:39-57 | every reported mower is ProcessMower's result for its own block, in input order, and lies on the lawn |
| Service.RunFailsAtFirstError | internal/interface/service/run.go:26-57 | the run fails exactly when the lawn line or some block fails, with the lawn error or the first failing block's error |
| Scenarios.MowerMovementTest | internal/domain/model/mower_test.go:6-31 | from `0 0 N`: right gives E, left gives N again, forward gives (0, 1), backward gives (0, 0) |
| Scenarios.ProcessMowerLeftThenBack | internal/interface/service/run_test.go:105-120 | on a 5 by 5 lawn, `2 2 N` with `LFFRRFFLF` ends at `2 3 N` |
| Scenarios.ProcessMowerReachesLeftEdge | internal/interface/service/run_test.go:122-135 | `1 1 N` with `FFLFFRF` ends at `0 4 N`; x = 0 is on the lawn |
| Scenarios.ProcessMowerTurnsSouth | internal/interface/service/run_test.go:137-150 | `1 1 N` with `FFLFFLF` ends at `0 2 S` |
| Scenarios.ProcessMowerTurnsEast | internal/interface/service/run_test.go:152-165 | `1 1 N` with `FFLFFLLF` ends at `1 3 E` |
| Scenarios.ProcessMowerBoundaryClamp | internal/interface/service/run_test.go:167-180 | `3 3 E` with `FFLFFRFFLL` ends at `5 5 W`; the steps past the edge are dropped |
| Scenarios.ProcessMowerStartOutside | internal/interface/service/run_test.go:182-191 | a start at `6 6` on a 5 by 5 lawn is WrongMowerInitPosition, whatever the instructions |
| Scenarios.ProcessMowerStartNegative | internal/interface/service/run_test.go:193-200 | a start at x = -1 is WrongMowerInitPosition, whatever the instructions |
| Scenarios.ExecuteTest | internal/interface/service/run_test.go:18-55 | the two-mower input ends with `1 3 N` and `5 1 E`, in that order |
| Scenarios.ExecuteErrorTest | internal/interface/service/run_test.go:58-78 | a lawn line `-1 3` fails the run with WrongLawnDimensions, whatever follows |
| Scenarios.TwoDigitHeaderQuirk | internal/interface/service/run.go:91-92 | the header `10 2 N` yields a mower at (10, 2) with orientation `" "`, and that mower ignores every instruction |
| Scenarios.ShortHeaderTest | internal/interface/service/run.go:91 | a header shorter than five characters fails with SliceOutOfRange |
| Scenarios.TrailingHeaderTest | internal/interface/service/run.go:39-42 | a last header with no instruction line gives its starting mower |

## Left out

- Opening the input file is not modelled: the working directory, the configured path, the `defer file.Close()` and the error from `os.Open` (run.go:17-22, 78-87). The model starts from the file's text, already split into lines.
- Logging (`log.Info`, `log.Debug`, `log.Error`) has no effect on results and is not modelled.
- `readLawnDimensions` reads the first line with `Fscanf` straight from the file. When that line is malformed, `Fscanf` can stop partway, and the later `bufio.Scanner` starts wherever it stopped. The model assumes the lawn line is consumed whole.
- `bufio.Scanner` gives up on a line longer than its 64 KiB token limit, and `Execute` ignores that scanner error. The model has no line-length limit.
- Go strings are bytes, and the model's strings are sequences of Unicode characters. Three consequences: invalid UTF-8 cannot be written down in the model; `len` and slicing on a header count characters in the model where Go counts bytes (next two lines); and each character of an instruction line is one instruction, as in Go's `range` over runes.
- Service.InitialMower: the orientation is the header's character at index 4, where Go's `initialPosition[4:5]` takes the byte at index 4. They agree whenever the first five bytes of the header are ASCII. On `"1é 2 N"` Go reads orientation `"2"` and the model reads `" "`; on `"1 2 é"` Go stores the one byte `"\xC3"` and the model stores `Other("é")`.
- Service.ProcessMower: SliceOutOfRange is stated for headers shorter than five characters, where Go panics on headers shorter than five bytes. They agree on ASCII headers. The non-ASCII header `"1é N"` has five bytes and four characters: Go starts a mower at (1, 0) facing N, and the model fails with SliceOutOfRange.
- Go `int` is taken to be 64 bits wide, as on the usual 64-bit platforms. On a 32-bit platform `++` and `--` wrap at 2^31, and a `%d` into an `int` fails outside the int32 range; the model does not cover that platform.
- Model.ForwardIsUnitStep: the exact ±1 step is stated only away from the int64 extremes. At the largest or smallest value, Go's `++` and `--` wrap around, and MoveForward's own contract states that wrap.
- Service.ProcessMower: the runtime panic of `initialPosition[4:5]` on a short header is modelled as the error value SliceOutOfRange, not as a panic that unwinds the program.
- Service.Execute: Go returns `nil` for a run with no mowers, and the model returns the empty sequence. Go returns pointers to mowers, and the model returns the mower values.
- The command entry point (`cmd/serve.go`) and the test helpers that write and delete temporary files are not modelled.

=== FILE: blocks.dfy ===
/**
 * The shape of Execute's loop, independent of what is done per mower:
 * the lines after the lawn line are read two at a time (header, then
 * instructions), each pair is processed in input order, and the first
 * error ends the run without a partial list.  When the last header has
 * no instruction line, reading it yields the empty string.
 */
module Blocks {
  import opened Results

  /** Number of (header, instructions) blocks in the lines. */
  function BlockCount<L>(lines: seq<L>): nat {
    (|lines| + 1) / 2
  }

  function HeaderAt(lines: seq<string>, k: nat): string
    requires k < BlockCount(lines)
  {
    lines[2 * k]
  }

  function InstructionsAt(lines: seq<string>, k: nat): string
    requires k < BlockCount(lines)
  {
    if 2 * k + 1 < |lines| then lines[2 * k + 1] else ""
  }

  /** The outcome of processing block `k`. */
  function Block<T, E>(process: (string, string) -> Result<T, E>, lines: seq<string>, k: nat): Result<T, E>
    requires k < BlockCount(lines)
  {
    process(HeaderAt(lines, k), InstructionsAt(lines, k))
  }

  /** The lines that remain once the first block has been read. */
  function DropBlock(lines: seq<string>): (rest: seq<string>)
    requires |lines| > 0
    ensures BlockCount(rest) == BlockCount(lines) - 1
  {
    if |lines| >= 2 then lines[2..] else []
  }

  /** A result with `prefix` put in front of its values; an error passes through. */
  function Prepend<T, E>(prefix: seq<T>, r: Result<seq<T>, E>): Result<seq<T>, E> {
    if r.Failure? then r else Success(prefix + r.value)
  }

  /** Every block in order; the first error is the result. */
  function ProcessAll<T, E>(process: (string, string) -> Result<T, E>, lines: seq<string>): (r: Result<seq<T>, E>)
    ensures r.Success? ==> |r.value| == BlockCount(lines)
    decreases |lines|
  {
    if |lines| == 0 then Success([])
    else
      var first := process(lines[0], if |lines| >= 2 then lines[1] else "");
      if first.Failure? then Failure(first.error)
      else
        var others := ProcessAll(process, DropBlock(lines));
        if others.Failure? then Failure(others.error) else Success([first.value] + others.value)
  }

  lemma PrependTwice<T, E>(a: seq<T>, b: seq<T>, r: Result<seq<T>, E>)
    ensures Prepend(a, Prepend(b, r)) == Prepend(a + b, r)
  {
    if r.Success? {
      assert a + (b + r.value) == (a + b) + r.value;
    }
  }

  lemma PrependNothing<T, E>(r: Result<seq<T>, E>)
    ensures Prepend([], r) == r
  {
    if r.Success? {
      assert [] + r.value == r.value;
    }
  }

  /** ProcessAll takes the first block, then the rest. */
  lemma ProcessAllFirst<T, E>(process: (string, string) -> Result<T, E>, lines: seq<string>)
    requires |lines| > 0
    ensures var first := Block(process, lines, 0);
      ProcessAll(process, lines) ==
        if first.Failure? then Failure(first.error)
        else Prepend([first.value], ProcessAll(process, DropBlock(lines)))
  {
  }

  /** The blocks of the remaining lines are the later blocks of the whole. */
  lemma DropBlockShifts<T, E>(process: (string, string) -> Result<T, E>, lines: seq<string>, k: nat)
    requires |lines| > 0 && k < BlockCount(DropBlock(lines))
    ensures Block(process, DropBlock(lines), k) == Block(process, lines, k + 1)
  {
    var rest := DropBlock(lines);
    assert |lines| >= 2 && rest == lines[2..];
    assert HeaderAt(rest, k) == HeaderAt(lines, k + 1);
    assert InstructionsAt(rest, k) == InstructionsAt(lines, k + 1);
  }

  /** The run succeeds exactly when every block does. */
  lemma {:induction false} ProcessAllSucceeds<T, E>(process: (string, string) -> Result<T, E>, lines: seq<string>)
    ensures ProcessAll(process, lines).Success? <==>
              forall k :: 0 <= k < BlockCount(lines) ==> Block(process, lines, k).Success?
    decreases |lines|
  {
    if |lines| > 0 {
      var rest := DropBlock(lines);
      ProcessAllSucceeds(process, rest);
      ProcessAllFirst(process, lines);
      forall k | 0 <= k < BlockCount(rest) {
        DropBlockShifts(process, lines, k);
      }
      if Block(process, lines, 0).Success? && ProcessAll(process, rest).Success? {
        forall k | 0 <= k < BlockCount(lines)
          ensures Block(process, lines, k).Success?
        {
          if k > 0 {
            assert Block(process, rest, k - 1).Success?;
          }
        }
      }
    }
  }

  /** On success the k-th value is the outcome of the k-th block: input order is kept. */
  lemma {:induction false} ProcessAllInOrder<T, E>(process: (string, string) -> Result<T, E>, lines: seq<string>)
    ensures var r := ProcessAll(process, lines);
      r.Success? ==> forall k :: 0 <= k < BlockCount(lines) ==> Block(process, lines, k) == Success(r.value[k])
    decreases |lines|
  {
    var r := ProcessAll(process, lines);
    if |lines| > 0 && r.Success? {
      var rest := DropBlock(lines);
      ProcessAllInOrder(process, rest);
      ProcessAllFirst(process, lines);
      forall k | 0 <= k < BlockCount(lines)
        ensures Block(process, lines, k) == Success(r.value[k])
      {
        if k > 0 {
          DropBlockShifts(process, lines, k - 1);
        }
      }
    }
  }

  /**
   * A failed run reports the error of the first failing block, every
   * block before it having succeeded.
   */
  lemma {:induction false} ProcessAllFirstError<T, E>(process: (string, string) -> Result<T, E>, lines: seq<string>)
    ensures var r := ProcessAll(process, lines);
      r.Failure? ==> exists k :: 0 <= k < BlockCount(lines) && Block(process, lines, k) == Failure(r.error) &&
                        forall j :: 0 <= j < k ==> Block(process, lines, j).Success?
    decreases |lines|
  {
    var r := ProcessAll(process, lines);
    if |lines| > 0 && r.Failure? {
      ProcessAllFirst(process, lines);
      if Block(process, lines, 0).Success? {
        var rest := DropBlock(lines);
        ProcessAllFirstError(process, rest);
        var k :| 0 <= k < BlockCount(rest) && Block(process, rest, k) == Failure(r.error) &&
                 forall j :: 0 <= j < k ==> Block(process, rest, j).Success?;
        DropBlockShifts(process, lines, k);
        forall j | 0 <= j < k + 1
          ensures Block(process, lines, j).Success?
        {
          if j > 0 {
            DropBlockShifts(process, lines, j - 1);
          }
        }
      }
    }
  }
}

=== FILE: fmt.dfy ===
/**
 * The part of Go's fmt scanner the runner relies on: the verb `%d` and a
 * lone space in the format, as in `Sscanf(line, "%d %d", &x, &y)`.
 * A `%d` skips spaces, accepts one optional sign and then one or more
 * decimal digits, and fails when the value does not fit an int64.  A
 * space in the format needs one or more spaces in the input, or the end
 * of the input.  When a verb fails, scanning stops and the variables it
 * did not reach keep their previous value, which is 0 in the runner.
 */
module Fmt {
  import opened Results
  import opened Model

  /** White space as fmt's scanner sees it, except newline, which ends a line. */
  predicate IsSpace(c: char) {
    ('\t' <= c <= '\r' && c != '\n') || c == ' ' || c == '\U{0085}' || c == '\U{00A0}'
    || c == '\U{1680}' || ('\U{2000}' <= c <= '\U{200A}') || c == '\U{2028}' || c == '\U{2029}'
    || c == '\U{202F}' || c == '\U{205F}' || c == '\U{3000}'
  }

  /** `r` is what is left of `s` after dropping some leading characters. */
  predicate SuffixOf(r: string, s: string) {
    |r| <= |s| && r == s[|s| - |r|..]
  }

  predicate IsDigit(c: char) {
    '0' <= c <= '9'
  }

  predicate AllDigits(s: string) {
    forall i :: 0 <= i < |s| ==> IsDigit(s[i])
  }

  /** Drops the leading white space of `s`. */
  function SkipSpaces(s: string): (r: string)
    ensures SuffixOf(r, s)
    ensures forall i :: 0 <= i < |s| - |r| ==> IsSpace(s[i])
    ensures |r| == 0 || !IsSpace(r[0])
  {
    if |s| > 0 && IsSpace(s[0]) then SkipSpaces(s[1..]) else s
  }

  /** Length of the longest all-digit prefix of `s`. */
  function DigitRun(s: string): (n: nat)
    ensures n <= |s| && AllDigits(s[..n])
    ensures n == |s| || !IsDigit(s[n])
  {
    if |s| > 0 && IsDigit(s[0]) then 1 + DigitRun(s[1..]) else 0
  }

  function DigitValue(c: char): nat
    requires IsDigit(c)
  {
    (c - '0') as nat
  }

  /** The number a string of decimal digits denotes, most significant first. */
  function DigitsValue(ds: string): nat
    requires AllDigits(ds)
  {
    if |ds| == 0 then 0
    else DigitsValue(ds[..|ds| - 1]) * 10 + DigitValue(ds[|ds| - 1])
  }

  /** What a successful `%d` read, and the input it left unread. */
  datatype Scanned = Scanned(value: int64, rest: string)

  /** The digits at the head of `u` and their value; None when `u` does not start with a digit. */
  function ScanDigits(u: string): (r: Option<(nat, string)>)
    ensures r.Some? ==> |r.value.1| < |u| && SuffixOf(r.value.1, u)
    ensures r.Some? ==> |r.value.1| == 0 || !IsDigit(r.value.1[0])
    ensures r.None? <==> |u| == 0 || !IsDigit(u[0])
  {
    var k := DigitRun(u);
    if k == 0 then None else Some((DigitsValue(u[..k]), u[k..]))
  }

  /** `u` without one leading sign character, if it has one. */
  function DropSign(t: string): (u: string)
    ensures SuffixOf(u, t)
  {
    if |t| > 0 && (t[0] == '-' || t[0] == '+') then t[1..] else t
  }

  /** The value of a digit run read after `t`'s optional sign. */
  function Signed(t: string, magnitude: nat): int {
    if |t| > 0 && t[0] == '-' then -(magnitude as int) else magnitude
  }

  /** One `%d` verb; None when the input does not start with an int64 literal. */
  function ScanInt(s: string): (r: Option<Scanned>)
    ensures r.Some? ==> |r.value.rest| < |s|
    ensures r.Some? ==> |r.value.rest| == 0 || !IsDigit(r.value.rest[0])
  {
    var t := SkipSpaces(s);
    var digits := ScanDigits(DropSign(t));
    if digits.None? then None
    else
      var v := Signed(t, digits.value.0);
      if MIN_INT <= v <= MAX_INT then Some(Scanned(v as int64, digits.value.1)) else None
  }

  /**
   * `Sscanf(s, "%d %d", &x, &y)` with x and y starting at 0: the pair of
   * values left in x and y, whatever the scan error was.
   */
  function ScanPair(s: string): (r: (int64, int64))
    ensures ScanInt(s).None? ==> r == (0, 0)
    ensures ScanInt(s).Some? ==> r.0 == ScanInt(s).value.value
    ensures ScanInt(s).Some? && |ScanInt(s).value.rest| > 0 && !IsSpace(ScanInt(s).value.rest[0]) ==> r.1 == 0
  {
    var first := ScanInt(s);
    if first.None? then (0, 0)
    else
      var x := first.value.value;
      var rest := first.value.rest;
      if |rest| > 0 && !IsSpace(rest[0]) then (x, 0)
      else
        var second := ScanInt(rest);
        if second.None? then (x, 0) else (x, second.value.value)
  }

  // ----- Printing, the partner of scanning -----

  function DigitChar(d: nat): (c: char)
    requires d < 10
    ensures IsDigit(c) && DigitValue(c) == d
  {
    '0' + d as char
  }

  /** Decimal digits of `n`, as `%d` prints it. */
  function FormatNat(n: nat): (s: string)
    ensures |s| > 0 && AllDigits(s)
  {
    if n < 10 then [DigitChar(n)] else FormatNat(n / 10) + [DigitChar(n % 10)]
  }

  /** `%d` of a signed value. */
  function FormatInt(v: int): (s: string)
    ensures |s| > 0 && (s[0] == '-' || IsDigit(s[0]))
  {
    if v < 0 then "-" + FormatNat(-v) else FormatNat(v)
  }

  lemma {:induction false} DigitsOfFormat(n: nat)
    ensures DigitsValue(FormatNat(n)) == n
  {
    if n >= 10 {
      var s := FormatNat(n);
      assert s[..|s| - 1] == FormatNat(n / 10);
      DigitsOfFormat(n / 10);
    }
  }

  lemma {:induction false} DigitRunOfPrefix(ds: string, rest: string)
    requires AllDigits(ds)
    requires |rest| == 0 || !IsDigit(rest[0])
    ensures DigitRun(ds + rest) == |ds|
    decreases |ds|
  {
    var s := ds + rest;
    if |ds| > 0 {
      assert s[0] == ds[0];
      assert s[1..] == ds[1..] + rest;
      DigitRunOfPrefix(ds[1..], rest);
    } else {
      assert s == rest;
    }
  }

  lemma ScanDigitsOfFormat(n: nat, rest: string)
    requires |rest| == 0 || !IsDigit(rest[0])
    ensures ScanDigits(FormatNat(n) + rest) == Some((n, rest))
  {
    var ds := FormatNat(n);
    var u := ds + rest;
    DigitRunOfPrefix(ds, rest);
    assert u[..|ds|] == ds;
    assert u[|ds|..] == rest;
    DigitsOfFormat(n);
  }

  /** ScanInt in terms of the digits it finds after the spaces and the sign. */
  lemma ScanIntOfParts(s: string, magnitude: nat, rest: string)
    requires ScanDigits(DropSign(SkipSpaces(s))) == Some((magnitude, rest))
    requires MIN_INT <= Signed(SkipSpaces(s), magnitude) <= MAX_INT
    ensures ScanInt(s) == Some(Scanned(Signed(SkipSpaces(s), magnitude) as int64, rest))
  {
  }

  /** A printed number starts with '-' or a digit, so there are no spaces to skip. */
  lemma FormatHasNoLeadingSpace(v: int, rest: string)
    ensures SkipSpaces(FormatInt(v) + rest) == FormatInt(v) + rest
  {
    var s := FormatInt(v) + rest;
    assert s[0] == FormatInt(v)[0];
  }

  /** After the sign, a printed number is the digits of its magnitude. */
  lemma FormatSplitsAtSign(v: int, rest: string)
    ensures DropSign(FormatInt(v) + rest) == FormatNat(if v < 0 then -v else v) + rest
    ensures Signed(FormatInt(v) + rest, if v < 0 then -v else v) == v
  {
    var t := FormatInt(v) + rest;
    if v < 0 {
      assert t == "-" + (FormatNat(-v) + rest);
      assert t[0] == '-' && t[1..] == FormatNat(-v) + rest;
    } else {
      assert t == FormatNat(v) + rest;
      assert IsDigit(t[0]);
    }
  }

  /** `%d` reads back exactly what `%d` printed, and stops at the first non-digit. */
  lemma ScanFormatRoundTrip(v: int64, rest: string)
    requires |rest| == 0 || !IsDigit(rest[0])
    ensures ScanInt(FormatInt(v as int) + rest) == Some(Scanned(v, rest))
  {
    var s := FormatInt(v as int) + rest;
    var n: nat := if v < 0 then -(v as int) else v as int;
    FormatHasNoLeadingSpace(v as int, rest);
    FormatSplitsAtSign(v as int, rest);
    ScanDigitsOfFormat(n, rest);
    ScanIntOfParts(s, n, rest);
  }

  /** `%d` skips a leading space. */
  lemma ScanIntSkipsSpace(c: char, s: string)
    requires IsSpace(c)
    ensures ScanInt([c] + s) == ScanInt(s)
  {
    assert ([c] + s)[1..] == s;
    assert SkipSpaces([c] + s) == SkipSpaces(s);
  }

  lemma ScanPairOfParts(s: string, x: int64, rest: string, y: int64, tail: string)
    requires ScanInt(s) == Some(Scanned(x, rest))
    requires |rest| > 0 && IsSpace(rest[0])
    requires ScanInt(rest) == Some(Scanned(y, tail))
    ensures ScanPair(s) == (x, y)
  {
  }

  /** A line printed as `"%d %d"` followed by more text scans back to the same pair. */
  lemma ScanPairRoundTrip(x: int64, y: int64, tail: string)
    requires |tail| == 0 || !IsDigit(tail[0])
    ensures ScanPair(FormatInt(x as int) + " " + FormatInt(y as int) + tail) == (x, y)
  {
    var second := FormatInt(y as int) + tail;
    var line := FormatInt(x as int) + " " + FormatInt(y as int) + tail;
    assert line == FormatInt(x as int) + ([' '] + second);
    assert ScanInt(line) == Some(Scanned(x, [' '] + second)) by {
      ScanFormatRoundTrip(x, [' '] + second);
    }
    assert ScanInt([' '] + second) == Some(Scanned(y, tail)) by {
      ScanIntSkipsSpace(' ', second);
      ScanFormatRoundTrip(y, tail);
    }
    ScanPairOfParts(line, x, [' '] + second, y, tail);
  }

  // ----- What is left at 0 when scanning fails -----

  /** `%d` fails on input that does not start with a number, even after a sign. */
  lemma ScanIntNeedsDigits(s: string)
    requires |s| > 0 && !IsSpace(s[0]) && !IsDigit(s[0])
    requires s[0] == '-' || s[0] == '+' ==> |s| == 1 || !IsDigit(s[1])
    ensures ScanInt(s) == None
    ensures ScanPair(s) == (0, 0)
  {
    assert SkipSpaces(s) == s;
    if s[0] == '-' || s[0] == '+' {
      assert DropSign(s) == s[1..];
    } else {
      assert DropSign(s) == s;
    }
  }

  /** A number outside the int64 range is a failed `%d`: both variables stay 0. */
  lemma ScanIntRejectsOverflow(v: int, rest: string)
    requires v < MIN_INT || MAX_INT < v
    requires |rest| == 0 || !IsDigit(rest[0])
    ensures ScanInt(FormatInt(v) + rest) == None
    ensures ScanPair(FormatInt(v) + rest) == (0, 0)
  {
    var n: nat := if v < 0 then -v else v;
    FormatHasNoLeadingSpace(v, rest);
    FormatSplitsAtSign(v, rest);
    ScanDigitsOfFormat(n, rest);
  }

  /** Without white space after the first number, y stays 0. */
  lemma ScanPairNeedsSeparator(x: int64, tail: string)
    requires |tail| > 0 && !IsSpace(tail[0]) && !IsDigit(tail[0])
    ensures ScanPair(FormatInt(x as int) + tail) == (x, 0)
  {
    ScanFormatRoundTrip(x, tail);
  }

  /** When no number follows the separator, y stays 0. */
  lemma ScanPairWithoutSecond(x: int64, t: string)
    requires |t| > 0 && !IsSpace(t[0]) && !IsDigit(t[0])
    requires t[0] == '-' || t[0] == '+' ==> |t| == 1 || !IsDigit(t[1])
    ensures ScanPair(FormatInt(x as int) + " " + t) == (x, 0)
  {
    var line := FormatInt(x as int) + " " + t;
    assert line == FormatInt(x as int) + ([' '] + t);
    ScanFormatRoundTrip(x, [' '] + t);
    ScanIntSkipsSpace(' ', t);
    ScanIntNeedsDigits(t);
  }
}

=== FILE: model.dfy ===
/**
 * The agent model of the mower simulator: a mower is a position on the
 * integer grid plus an orientation, and it reacts to the instruction
 * letters R, L and F.  Coordinates are Go `int`s, i.e. 64-bit two's
 * complement, so a step past the largest value wraps to the smallest.
 */
module Model {

  const TWO_64: int := 0x1_0000_0000_0000_0000
  const MIN_INT: int := -0x8000_0000_0000_0000
  const MAX_INT: int := 0x7fff_ffff_ffff_ffff

  /** Go's `int` on a 64-bit platform. */
  newtype int64 = x: int | -0x8000_0000_0000_0000 <= x <= 0x7fff_ffff_ffff_ffff

  /** Reduction of an unbounded integer into the int64 range, modulo 2^64. */
  function Wrap(v: int): (r: int64)
    ensures (r as int - v) % TWO_64 == 0
    ensures MIN_INT <= v <= MAX_INT ==> r as int == v
  {
    ((v - MIN_INT) % TWO_64 + MIN_INT) as int64
  }

  /** `v++` on a Go int. */
  function Inc(v: int64): (r: int64)
    ensures r == Wrap(v as int + 1)
  {
    if v as int == MAX_INT then MIN_INT as int64 else v + 1
  }

  /** `v--` on a Go int. */
  function Dec(v: int64): (r: int64)
    ensures r == Wrap(v as int - 1)
  {
    if v as int == MIN_INT then MAX_INT as int64 else v - 1
  }

  /**
   * The orientation string a mower carries.  The four recognised letters
   * get their own constructors; any other string is kept verbatim, and
   * every operation treats it as a no-op.
   */
  datatype Orientation = N | E | S | W | Other(text: string)

  predicate Cardinal(o: Orientation) {
    !o.Other?
  }

  /** Other is only used for strings that are not one of the four letters. */
  predicate WellFormed(o: Orientation) {
    o.Other? ==> o.text != "N" && o.text != "E" && o.text != "S" && o.text != "W"
  }

  /** Reading the orientation string stored in the Go struct. */
  function ParseOrientation(s: string): (o: Orientation)
    ensures WellFormed(o)
    ensures OrientationText(o) == s
  {
    if s == "N" then N
    else if s == "E" then E
    else if s == "S" then S
    else if s == "W" then W
    else Other(s)
  }

  /** The string the Go struct holds for an orientation. */
  function OrientationText(o: Orientation): string {
    match o
    case N => "N"
    case E => "E"
    case S => "S"
    case W => "W"
    case Other(t) => t
  }

  /** Position of a cardinal orientation in the clockwise cycle N, E, S, W. */
  function Heading(o: Orientation): (h: nat)
    requires Cardinal(o)
    ensures h < 4
  {
    match o
    case N => 0
    case E => 1
    case S => 2
    case W => 3
  }

  /** Unit displacement of one forward step, as an independent table. */
  function Dx(o: Orientation): int {
    if o == E then 1 else if o == W then -1 else 0
  }

  function Dy(o: Orientation): int {
    if o == N then 1 else if o == S then -1 else 0
  }

  /** The orientations a Go string can stand for: a letter is never wrapped in Other. */
  type MowerOrientation = o: Orientation | WellFormed(o) witness N

  datatype Mower = Mower(x: int64, y: int64, orientation: MowerOrientation)

  /** The lawn: valid positions are 0 <= x <= width and 0 <= y <= height. */
  datatype Lawn = Lawn(width: int64, height: int64)

  predicate Contains(lawn: Lawn, m: Mower) {
    0 <= m.x <= lawn.width && 0 <= m.y <= lawn.height
  }

  /** Rotates a quarter turn clockwise; an unrecognised orientation stays put. */
  function TurnRight(m: Mower): (r: Mower)
    ensures r.x == m.x && r.y == m.y
    ensures Cardinal(m.orientation) <==> Cardinal(r.orientation)
    ensures Cardinal(m.orientation) ==>
              Heading(r.orientation) == (Heading(m.orientation) + 1) % 4
    ensures !Cardinal(m.orientation) ==> r == m
  {
    match m.orientation
    case N => m.(orientation := E)
    case E => m.(orientation := S)
    case S => m.(orientation := W)
    case W => m.(orientation := N)
    case Other(_) => m
  }

  /** Rotates a quarter turn counter-clockwise; an unrecognised orientation stays put. */
  function TurnLeft(m: Mower): (r: Mower)
    ensures r.x == m.x && r.y == m.y
    ensures Cardinal(m.orientation) <==> Cardinal(r.orientation)
    ensures Cardinal(m.orientation) ==>
              Heading(r.orientation) == (Heading(m.orientation) + 3) % 4
    ensures !Cardinal(m.orientation) ==> r == m
  {
    match m.orientation
    case N => m.(orientation := W)
    case W => m.(orientation := S)
    case S => m.(orientation := E)
    case E => m.(orientation := N)
    case Other(_) => m
  }

  /** One step in the facing direction, with Go's wrap-around on overflow. */
  function MoveForward(m: Mower): (r: Mower)
    ensures r.orientation == m.orientation
    ensures r.x == Wrap(m.x as int + Dx(m.orientation))
    ensures r.y == Wrap(m.y as int + Dy(m.orientation))
  {
    match m.orientation
    case N => m.(y := Inc(m.y))
    case E => m.(x := Inc(m.x))
    case S => m.(y := Dec(m.y))
    case W => m.(x := Dec(m.x))
    case Other(_) => m
  }

  /** One step against the facing direction: used to undo a forward step. */
  function MoveBackward(m: Mower): (r: Mower)
    ensures r.orientation == m.orientation
    ensures r.x == Wrap(m.x as int - Dx(m.orientation))
    ensures r.y == Wrap(m.y as int - Dy(m.orientation))
  {
    match m.orientation
    case N => m.(y := Dec(m.y))
    case E => m.(x := Dec(m.x))
    case S => m.(y := Inc(m.y))
    case W => m.(x := Inc(m.x))
    case Other(_) => m
  }

  /** Dispatch of one instruction; anything but "R", "L" or "F" is ignored. */
  function Move(m: Mower, instruction: string): (r: Mower)
    ensures instruction != "F" ==> r.x == m.x && r.y == m.y
    ensures instruction != "R" && instruction != "L" ==> r.orientation == m.orientation
    ensures instruction != "R" && instruction != "L" && instruction != "F" ==> r == m
  {
    if instruction == "R" then TurnRight(m)
    else if instruction == "L" then TurnLeft(m)
    else if instruction == "F" then MoveForward(m)
    else m
  }

  // ----- Laws of the agent model -----

  /** Reading back the text of a well-formed orientation gives the same orientation. */
  lemma ParseOrientationRoundTrip(o: Orientation)
    requires WellFormed(o)
    ensures ParseOrientation(OrientationText(o)) == o
  {
  }

  /** The clockwise cycle: N -> E -> S -> W -> N. */
  lemma TurnRightTable(x: int64, y: int64)
    ensures TurnRight(Mower(x, y, N)).orientation == E
    ensures TurnRight(Mower(x, y, E)).orientation == S
    ensures TurnRight(Mower(x, y, S)).orientation == W
    ensures TurnRight(Mower(x, y, W)).orientation == N
  {
  }

  /** Four right turns, or four left turns, are the identity on every mower. */
  lemma FourTurnsIdentity(m: Mower)
    ensures TurnRight(TurnRight(TurnRight(TurnRight(m)))) == m
    ensures TurnLeft(TurnLeft(TurnLeft(TurnLeft(m)))) == m
  {
  }

  /** TurnLeft undoes TurnRight and vice versa, for every mower. */
  lemma TurnsAreInverse(m: Mower)
    ensures TurnLeft(TurnRight(m)) == m
    ensures TurnRight(TurnLeft(m)) == m
  {
  }

  lemma IncDecInverse(v: int64)
    ensures Dec(Inc(v)) == v
    ensures Inc(Dec(v)) == v
  {
  }

  /** MoveBackward undoes MoveForward and vice versa, including at the int64 extremes. */
  lemma MovesAreInverse(m: Mower)
    ensures MoveBackward(MoveForward(m)) == m
    ensures MoveForward(MoveBackward(m)) == m
  {
    IncDecInverse(m.x);
    IncDecInverse(m.y);
  }

  /**
   * Away from the int64 extremes a forward step changes exactly one
   * coordinate by exactly one: N is y+1, E is x+1, S is y-1, W is x-1.
   */
  lemma ForwardIsUnitStep(m: Mower)
    requires Cardinal(m.orientation)
    requires MIN_INT < m.x as int < MAX_INT && MIN_INT < m.y as int < MAX_INT
    ensures var r := MoveForward(m);
      (m.orientation == N ==> r.x == m.x && r.y as int == m.y as int + 1) &&
      (m.orientation == E ==> r.y == m.y && r.x as int == m.x as int + 1) &&
      (m.orientation == S ==> r.x == m.x && r.y as int == m.y as int - 1) &&
      (m.orientation == W ==> r.y == m.y && r.x as int == m.x as int - 1)
  {
  }

  /** With an unrecognised orientation, every operation leaves the mower as it is. */
  lemma OtherIsInert(m: Mower, instruction: string)
    requires !Cardinal(m.orientation)
    ensures TurnRight(m) == m && TurnLeft(m) == m
    ensures MoveForward(m) == m && MoveBackward(m) == m
    ensures Move(m, instruction) == m
  {
  }

  /** Move dispatches R, L and F to the matching operation. */
  lemma MoveDispatch(m: Mower)
    ensures Move(m, "R") == TurnRight(m)
    ensures Move(m, "L") == TurnLeft(m)
    ensures Move(m, "F") == MoveForward(m)
  {
  }
}

=== FILE: results.dfy ===
/** Optional values and success-or-error results shared by the scanner and the runner. */
module Results {

  /** A value that may be absent, e.g. a number the scanner could not read. */
  datatype Option<+T> = None | Some(value: T)

  /** Either the value an operation produced or the error it reported. */
  datatype Result<+T, +E> = Success(value: T) | Failure(error: E)
}

=== FILE: scenarios.dfy ===
/**
 * The outcomes the repository's tests expect, derived from the model.
 * Each header line is tied to the numbers it holds through the printing
 * round trip of the scanner, and each instruction line is folded in a
 * lemma of its own.
 */
module Scenarios {
  import opened Results
  import opened Model
  import opened Fmt
  import opened Blocks
  import opened Service

  /** The text `"<x> <y> <letter>"` of a mower. */
  function HeaderText(m: Mower): string {
    FormatInt(m.x as int) + " " + FormatInt(m.y as int) + " " + OrientationText(m.orientation)
  }

  /** A single-digit header of a mower on the lawn starts the fold from that mower. */
  lemma StartFrom(lawn: Lawn, m: Mower, header: string, instructions: string)
    requires 0 <= m.x <= 9 && 0 <= m.y <= 9 && Cardinal(m.orientation)
    requires header == HeaderText(m) && Contains(lawn, m)
    ensures ProcessMower(lawn, header, instructions) == Success(Follow(lawn, m, instructions))
  {
    SingleDigitHeader(m.x, m.y, m.orientation);
  }

  // ----- Header lines of the tests -----

  lemma Start22N(instructions: string)
    ensures ProcessMower(Lawn(5, 5), "2 2 N", instructions) == Success(Follow(Lawn(5, 5), Mower(2, 2, N), instructions))
  {
    assert "2 2 N" == HeaderText(Mower(2, 2, N)) by {
      assert FormatInt(2) == "2";
    }
    StartFrom(Lawn(5, 5), Mower(2, 2, N), "2 2 N", instructions);
  }

  lemma Start11N(instructions: string)
    ensures ProcessMower(Lawn(5, 5), "1 1 N", instructions) == Success(Follow(Lawn(5, 5), Mower(1, 1, N), instructions))
  {
    assert "1 1 N" == HeaderText(Mower(1, 1, N)) by {
      assert FormatInt(1) == "1";
    }
    StartFrom(Lawn(5, 5), Mower(1, 1, N), "1 1 N", instructions);
  }

  lemma Start12N(instructions: string)
    ensures ProcessMower(Lawn(5, 5), "1 2 N", instructions) == Success(Follow(Lawn(5, 5), Mower(1, 2, N), instructions))
  {
    assert "1 2 N" == HeaderText(Mower(1, 2, N)) by {
      assert FormatInt(1) == "1" && FormatInt(2) == "2";
    }
    StartFrom(Lawn(5, 5), Mower(1, 2, N), "1 2 N", instructions);
  }

  lemma Start33E(instructions: string)
    ensures ProcessMower(Lawn(5, 5), "3 3 E", instructions) == Success(Follow(Lawn(5, 5), Mower(3, 3, E), instructions))
  {
    assert "3 3 E" == HeaderText(Mower(3, 3, E)) by {
      assert FormatInt(3) == "3";
    }
    StartFrom(Lawn(5, 5), Mower(3, 3, E), "3 3 E", instructions);
  }

  // ----- Instruction lines of the tests, folded on a 5 by 5 lawn -----

  /** A fold through a waypoint: the two halves of the instruction line one after the other. */
  lemma Via(lawn: Lawn, m: Mower, a: string, b: string, mid: Mower, last: Mower)
    requires Follow(lawn, m, a) == mid && Follow(lawn, mid, b) == last
    ensures Follow(lawn, m, a + b) == last
  {
    FollowAppend(lawn, m, a, b);
  }

  lemma FoldLeftThenBack()
    ensures Follow(Lawn(5, 5), Mower(2, 2, N), "LFFRRFFLF") == Mower(2, 3, N)
  {
    Via(Lawn(5, 5), Mower(2, 2, N), "LFFR", "RFFLF", Mower(0, 2, N), Mower(2, 3, N));
    assert "LFFR" + "RFFLF" == "LFFRRFFLF";
  }

  /** The step west from x = 0 is dropped. */
  lemma FoldToLeftEdge()
    ensures Follow(Lawn(5, 5), Mower(1, 1, N), "FFLFFRF") == Mower(0, 4, N)
  {
    Via(Lawn(5, 5), Mower(1, 1, N), "FFL", "FFRF", Mower(1, 3, W), Mower(0, 4, N));
    assert "FFL" + "FFRF" == "FFLFFRF";
  }

  lemma FoldToSouth()
    ensures Follow(Lawn(5, 5), Mower(1, 1, N), "FFLFFLF") == Mower(0, 2, S)
  {
    Via(Lawn(5, 5), Mower(1, 1, N), "FFL", "FFLF", Mower(1, 3, W), Mower(0, 2, S));
    assert "FFL" + "FFLF" == "FFLFFLF";
  }

  lemma FoldToEast()
    ensures Follow(Lawn(5, 5), Mower(1, 1, N), "FFLFFLLF") == Mower(1, 3, E)
  {
    Via(Lawn(5, 5), Mower(1, 1, N), "FFL", "FFLLF", Mower(1, 3, W), Mower(1, 3, E));
    assert "FFL" + "FFLLF" == "FFLFFLLF";
  }

  /** The steps past x = 5 and y = 5 are dropped and the later turns still apply. */
  lemma FoldAgainstCorner()
    ensures Follow(Lawn(5, 5), Mower(3, 3, E), "FFLFFRFFLL") == Mower(5, 5, W)
  {
    Via(Lawn(5, 5), Mower(3, 3, E), "FFLFF", "RFFLL", Mower(5, 5, N), Mower(5, 5, W));
    assert "FFLFF" + "RFFLL" == "FFLFFRFFLL";
  }

  lemma FoldFirstMower()
    ensures Follow(Lawn(5, 5), Mower(1, 2, N), "LFLFLFLFF") == Mower(1, 3, N)
  {
    Via(Lawn(5, 5), Mower(1, 2, N), "LFLF", "LFLFF", Mower(0, 1, S), Mower(1, 3, N));
    assert "LFLF" + "LFLFF" == "LFLFLFLFF";
  }

  lemma FoldSecondMower()
    ensures Follow(Lawn(5, 5), Mower(3, 3, E), "FFRFFRFRRF") == Mower(5, 1, E)
  {
    Via(Lawn(5, 5), Mower(3, 3, E), "FFRFF", "RFRRF", Mower(5, 1, S), Mower(5, 1, E));
    assert "FFRFF" + "RFRRF" == "FFRFFRFRRF";
  }

  // ----- mower_test.go -----

  /** N turned right faces E, turned back left faces N; a step forward and back returns to (0, 0). */
  lemma MowerMovementTest()
    ensures TurnRight(Mower(0, 0, N)) == Mower(0, 0, E)
    ensures TurnLeft(Mower(0, 0, E)) == Mower(0, 0, N)
    ensures MoveForward(Mower(0, 0, N)) == Mower(0, 1, N)
    ensures MoveBackward(Mower(0, 1, N)) == Mower(0, 0, N)
  {
  }

  // ----- run_test.go: the cases of TestProcessMower -----

  lemma ProcessMowerLeftThenBack()
    ensures ProcessMower(Lawn(5, 5), "2 2 N", "LFFRRFFLF") == Success(Mower(2, 3, N))
  {
    Start22N("LFFRRFFLF");
    FoldLeftThenBack();
  }

  /** Reaching x = 0 is legal: the bounds are inclusive. */
  lemma ProcessMowerReachesLeftEdge()
    ensures ProcessMower(Lawn(5, 5), "1 1 N", "FFLFFRF") == Success(Mower(0, 4, N))
  {
    Start11N("FFLFFRF");
    FoldToLeftEdge();
  }

  lemma ProcessMowerTurnsSouth()
    ensures ProcessMower(Lawn(5, 5), "1 1 N", "FFLFFLF") == Success(Mower(0, 2, S))
  {
    Start11N("FFLFFLF");
    FoldToSouth();
  }

  lemma ProcessMowerTurnsEast()
    ensures ProcessMower(Lawn(5, 5), "1 1 N", "FFLFFLLF") == Success(Mower(1, 3, E))
  {
    Start11N("FFLFFLLF");
    FoldToEast();
  }

  /** Forward steps past x = 5 and y = 5 are dropped and the later instructions still run. */
  lemma ProcessMowerBoundaryClamp()
    ensures ProcessMower(Lawn(5, 5), "3 3 E", "FFLFFRFFLL") == Success(Mower(5, 5, W))
  {
    Start33E("FFLFFRFFLL");
    FoldAgainstCorner();
  }

  lemma ProcessMowerStartOutside(instructions: string)
    ensures ProcessMower(Lawn(5, 5), "6 6 E", instructions) == Failure(WrongMowerInitPosition)
  {
    assert "6 6 E" == HeaderText(Mower(6, 6, E)) by {
      assert FormatInt(6) == "6";
    }
    SingleDigitHeader(6, 6, E);
  }

  lemma ProcessMowerStartNegative(instructions: string)
    ensures ProcessMower(Lawn(5, 5), "-1 3 E", instructions) == Failure(WrongMowerInitPosition)
  {
    NegativeHeaderReads();
    assert InitialMower("-1 3 E").x == -1;
  }

  lemma NegativeHeaderReads()
    ensures ScanPair("-1 3 E") == (-1, 3)
  {
    var header := FormatInt(-1) + " " + FormatInt(3) + " E";
    assert header == "-1 3 E" by {
      assert FormatInt(-1) == "-1" && FormatInt(3) == "3";
    }
    ScanPairRoundTrip(-1, 3, " E");
  }

  // ----- Header quirks -----

  /** The orientation a header gets when its character at index 4 is a space. */
  const Blank: MowerOrientation := Other(" ")

  /**
   * The orientation is read at index 4 whatever the width of the
   * numbers: with a two-digit x that character is the second space, so
   * the mower gets no cardinal orientation and ignores every instruction.
   */
  lemma TwoDigitHeaderQuirk(instructions: string)
    ensures InitialMower("10 2 N") == Mower(10, 2, Blank)
    ensures ProcessMower(Lawn(10, 10), "10 2 N", instructions) == Success(Mower(10, 2, Blank))
  {
    TwoDigitHeaderReads();
  }

  lemma FifthOfTwoDigitHeader()
    ensures "10 2 N"[4..5] == " "
  {
    assert "10 2 N"[4] == ' ';
  }

  lemma TwoDigitHeaderReads()
    ensures InitialMower("10 2 N") == Mower(10, 2, Blank)
  {
    var header := FormatInt(10) + " " + FormatInt(2) + " N";
    assert header == "10 2 N" by {
      assert FormatInt(10) == "10" && FormatInt(2) == "2";
    }
    ScanPairRoundTrip(10, 2, " N");
    FifthOfTwoDigitHeader();
    assert ParseOrientation(" ") == Blank;
  }

  /** A header shorter than five characters cannot be sliced at index 4. */
  lemma ShortHeaderTest(lawn: Lawn, instructions: string)
    ensures ProcessMower(lawn, "1 2", instructions) == Failure(SliceOutOfRange)
  {
  }

  // ----- run_test.go: Execute -----

  lemma CanonicalMowers(p: (string, string) -> Result<Mower, Error>)
    requires p == OnLawn(Lawn(5, 5))
    ensures p("1 2 N", "LFLFLFLFF") == Success(Mower(1, 3, N))
    ensures p("3 3 E", "FFRFFRFRRF") == Success(Mower(5, 1, E))
  {
    Start12N("LFLFLFLFF");
    FoldFirstMower();
    Start33E("FFRFFRFRRF");
    FoldSecondMower();
  }

  /** Two blocks that both succeed give their two values, in order. */
  lemma TwoBlocks<T, E>(p: (string, string) -> Result<T, E>, a: string, b: string, c: string, d: string)
    requires p(a, b).Success? && p(c, d).Success?
    ensures ProcessAll(p, [a, b, c, d]) == Success([p(a, b).value, p(c, d).value])
  {
    assert DropBlock([a, b, c, d]) == [c, d];
    assert DropBlock([c, d]) == [];
    ProcessAllFirst(p, [a, b, c, d]);
    ProcessAllFirst(p, [c, d]);
    assert ProcessAll(p, []) == Success([]);
    assert Block(p, [a, b, c, d], 0) == p(a, b);
    assert Block(p, [c, d], 0) == p(c, d);
    assert [p(a, b).value] + ([p(c, d).value] + []) == [p(a, b).value, p(c, d).value];
  }

  /** The lawn line of the tests. */
  lemma FiveByFiveLawn()
    ensures ReadLawnDimensions("5 5") == Success(Lawn(5, 5))
  {
    var line := FormatInt(5) + " " + FormatInt(5);
    assert line == "5 5" by {
      assert FormatInt(5) == "5";
    }
    ReadLawnRoundTrip(5, 5);
  }

  /** A single block that succeeds gives its one value. */
  lemma OneBlock<T, E>(p: (string, string) -> Result<T, E>, a: string)
    requires p(a, "").Success?
    ensures ProcessAll(p, [a]) == Success([p(a, "").value])
  {
    assert DropBlock([a]) == [];
    ProcessAllFirst(p, [a]);
    assert ProcessAll(p, []) == Success([]);
    assert InstructionsAt([a], 0) == "";
    assert Block(p, [a], 0) == p(a, "");
    assert [p(a, "").value] + [] == [p(a, "").value];
  }

  /** A trailing header without an instruction line leaves its mower where it starts. */
  lemma TrailingHeaderTest()
    ensures Run("5 5", ["1 2 N"]) == Success([Mower(1, 2, N)])
  {
    FiveByFiveLawn();
    Start12N("");
    OneBlock(OnLawn(Lawn(5, 5)), "1 2 N");
  }

  /** Two mowers on a 5 by 5 lawn end at `1 3 N` and `5 1 E`, in input order. */
  lemma ExecuteTest()
    ensures Run("5 5", ["1 2 N", "LFLFLFLFF", "3 3 E", "FFRFFRFRRF"]) == Success([Mower(1, 3, N), Mower(5, 1, E)])
  {
    FiveByFiveLawn();
    CanonicalMowers(OnLawn(Lawn(5, 5)));
    TwoBlocks(OnLawn(Lawn(5, 5)), "1 2 N", "LFLFLFLFF", "3 3 E", "FFRFFRFRRF");
  }

  /** A negative width rejects the whole run before any mower. */
  lemma ExecuteErrorTest(lines: seq<string>)
    ensures Run("-1 3", lines) == Failure(WrongLawnDimensions)
  {
    NegativeWidthLawn();
  }

  lemma NegativeWidthLawn()
    ensures ReadLawnDimensions("-1 3") == Failure(WrongLawnDimensions)
  {
    var line := FormatInt(-1) + " " + FormatInt(3);
    assert line == "-1 3" by {
      assert FormatInt(-1) == "-1" && FormatInt(3) == "3";
    }
    ReadLawnRoundTrip(-1, 3);
  }
}

=== FILE: service.dfy ===
/**
 * The simulation runner: reads the lawn line, builds each mower from its
 * header line, folds its instruction line over it while keeping it on
 * the lawn, and collects the final mowers in input order.  Input arrives
 * as text already split into lines; opening and reading the file is the
 * caller's business.
 */
module Service {
  import opened Results
  import opened Model
  import opened Fmt
  import opened Blocks

  /**
   * Why a run stops.  The first two are the errors the runner returns;
   * SliceOutOfRange stands for the runtime panic of slicing a header line
   * shorter than five characters, which ends the run just as abruptly.
   */
  datatype Error = WrongLawnDimensions | WrongMowerInitPosition | SliceOutOfRange

  /** The lawn from its line `"<width> <height>"`; a negative bound is rejected, zero is not. */
  function ReadLawnDimensions(line: string): (r: Result<Lawn, Error>)
    ensures r.Success? <==> ScanPair(line).0 >= 0 && ScanPair(line).1 >= 0
    ensures r.Success? ==> r.value == Lawn(ScanPair(line).0, ScanPair(line).1)
    ensures r.Failure? ==> r.error == WrongLawnDimensions
  {
    var (width, height) := ScanPair(line);
    var lawn := Lawn(width, height);
    if lawn.width < 0 || lawn.height < 0 then Failure(WrongLawnDimensions) else Success(lawn)
  }

  /**
   * One turn of ProcessMower's loop: apply the instruction, and if the
   * mower is now off the lawn, step it back and go on.
   */
  function Step(lawn: Lawn, m: Mower, c: char): (r: Mower)
    ensures Contains(lawn, m) ==> Contains(lawn, r)
    ensures !Cardinal(m.orientation) ==> r == m
    ensures r.orientation == Move(m, [c]).orientation
  {
    var moved := Move(m, [c]);
    if !Contains(lawn, moved) then MoveBackward(moved) else moved
  }

  /**
   * Independent statement of what one instruction does to a mower on the
   * lawn: a forward step that would leave the lawn is dropped, everything
   * else is the plain instruction.
   */
  function Intended(lawn: Lawn, m: Mower, c: char): Mower {
    if c == 'F' then
      if Contains(lawn, MoveForward(m)) then MoveForward(m) else m
    else Move(m, [c])
  }

  /** The instructions folded left to right over the mower. */
  function Follow(lawn: Lawn, m: Mower, instructions: string): (r: Mower)
    ensures Contains(lawn, m) ==> Contains(lawn, r)
    ensures !Cardinal(m.orientation) ==> r == m
    ensures Cardinal(m.orientation) <==> Cardinal(r.orientation)
    decreases |instructions|
  {
    if |instructions| == 0 then m
    else Follow(lawn, Step(lawn, m, instructions[0]), instructions[1..])
  }

  /**
   * The mower a header line describes: the orientation is the one
   * character at index 4, and x and y come from scanning `"%d %d"`.
   */
  function InitialMower(header: string): (m: Mower)
    requires |header| >= 5
    ensures (m.x, m.y) == ScanPair(header)
    ensures OrientationText(m.orientation) == header[4..5]
  {
    var (x, y) := ScanPair(header);
    Mower(x, y, ParseOrientation(header[4..5]))
  }

  /** ProcessMower: one mower from its header and instruction line. */
  function ProcessMower(lawn: Lawn, header: string, instructions: string): (r: Result<Mower, Error>)
    ensures r == Failure(SliceOutOfRange) <==> |header| < 5
    ensures r == Failure(WrongMowerInitPosition) <==>
              |header| >= 5 && !Contains(lawn, InitialMower(header))
    ensures r.Success? <==> |header| >= 5 && Contains(lawn, InitialMower(header))
    ensures r.Success? ==> Contains(lawn, r.value)
    ensures r.Success? ==> r.value == Follow(lawn, InitialMower(header), instructions)
  {
    if |header| < 5 then Failure(SliceOutOfRange)
    else
      var m := InitialMower(header);
      if !Contains(lawn, m) then Failure(WrongMowerInitPosition)
      else Success(Follow(lawn, m, instructions))
  }

  // ----- Execute -----

  /** ProcessMower on a fixed lawn, as the per-block step of Execute. */
  function OnLawn(lawn: Lawn): (string, string) -> Result<Mower, Error> {
    (header, instructions) => ProcessMower(lawn, header, instructions)
  }

  /** The whole run on the lawn line and the lines that follow it. */
  function Run(lawnLine: string, lines: seq<string>): (r: Result<seq<Mower>, Error>)
    ensures ReadLawnDimensions(lawnLine).Failure? ==> r == Failure(WrongLawnDimensions)
    ensures r.Success? ==> ReadLawnDimensions(lawnLine).Success? && |r.value| == BlockCount(lines)
  {
    var dims := ReadLawnDimensions(lawnLine);
    if dims.Failure? then Failure(dims.error) else ProcessAll(OnLawn(dims.value), lines)
  }

  /** Execute, as the loop the runner runs over the scanned lines. */
  method Execute(lawnLine: string, lines: seq<string>) returns (r: Result<seq<Mower>, Error>)
    ensures r == Run(lawnLine, lines)
  {
    var dims := ReadLawnDimensions(lawnLine);
    if dims.Failure? {
      return Failure(dims.error);
    }
    var lawn := dims.value;
    var result: seq<Mower> := [];
    var rest := lines;
    PrependNothing(ProcessAll(OnLawn(lawn), lines));
    while |rest| > 0
      invariant ProcessAll(OnLawn(lawn), lines) == Prepend(result, ProcessAll(OnLawn(lawn), rest))
      decreases |rest|
    {
      var header := rest[0];
      var instructions := if |rest| >= 2 then rest[1] else "";
      var mower := ProcessMower(lawn, header, instructions);
      ProcessAllFirst(OnLawn(lawn), rest);
      if mower.Failure? {
        return Failure(mower.error);
      }
      PrependTwice(result, [mower.value], ProcessAll(OnLawn(lawn), DropBlock(rest)));
      result := result + [mower.value];
      rest := DropBlock(rest);
    }
    assert result + [] == result;
    return Success(result);
  }

  // ----- Properties of the runner -----

  /** A lawn line printed from two numbers reads back as that lawn, unless a bound is negative. */
  lemma ReadLawnRoundTrip(width: int64, height: int64)
    ensures var r := ReadLawnDimensions(FormatInt(width as int) + " " + FormatInt(height as int));
      if width < 0 || height < 0 then r == Failure(WrongLawnDimensions)
      else r == Success(Lawn(width, height))
  {
    var line := FormatInt(width as int) + " " + FormatInt(height as int);
    assert line == FormatInt(width as int) + " " + FormatInt(height as int) + "";
    ScanPairRoundTrip(width, height, "");
  }

  /** A lawn line without a number is not rejected: both bounds keep their zero value. */
  lemma UnreadableLawnLine(line: string)
    requires |line| > 0 && !IsSpace(line[0]) && !IsDigit(line[0])
    requires line[0] == '-' || line[0] == '+' ==> |line| == 1 || !IsDigit(line[1])
    ensures ReadLawnDimensions(line) == Success(Lawn(0, 0))
  {
    ScanIntNeedsDigits(line);
  }

  /**
   * On the lawn, the loop body agrees with the independent description:
   * turns need no bounds check, and a forward step that would leave the
   * lawn is discarded.
   */
  lemma StepDiscardsEscapes(lawn: Lawn, m: Mower, c: char)
    requires Contains(lawn, m)
    ensures Step(lawn, m, c) == Intended(lawn, m, c)
  {
    if c == 'F' {
      MovesAreInverse(m);
    }
  }

  /** The instructions folded with the independent description of one step. */
  function Planned(lawn: Lawn, m: Mower, instructions: string): Mower
    decreases |instructions|
  {
    if |instructions| == 0 then m
    else Planned(lawn, Intended(lawn, m, instructions[0]), instructions[1..])
  }

  /** From a position on the lawn, ProcessMower's loop follows the independent description. */
  lemma {:induction false} FollowMatchesPlan(lawn: Lawn, m: Mower, instructions: string)
    requires Contains(lawn, m)
    ensures Follow(lawn, m, instructions) == Planned(lawn, m, instructions)
    decreases |instructions|
  {
    if |instructions| > 0 {
      StepDiscardsEscapes(lawn, m, instructions[0]);
      FollowMatchesPlan(lawn, Step(lawn, m, instructions[0]), instructions[1..]);
    }
  }

  /** Folding a concatenation is folding the parts one after the other. */
  lemma {:induction false} FollowAppend(lawn: Lawn, m: Mower, a: string, b: string)
    ensures Follow(lawn, m, a + b) == Follow(lawn, Follow(lawn, m, a), b)
    decreases |a|
  {
    if |a| == 0 {
      assert a + b == b;
    } else {
      assert (a + b)[0] == a[0];
      assert (a + b)[1..] == a[1..] + b;
      FollowAppend(lawn, Step(lawn, m, a[0]), a[1..], b);
    }
  }

  /**
   * A forward step that would leave the lawn is dropped and the loop goes
   * on with the remaining instructions (a `continue`, not a `break`).
   */
  lemma FollowContinuesAfterEscape(lawn: Lawn, m: Mower, rest: string)
    requires Contains(lawn, m) && !Contains(lawn, MoveForward(m))
    ensures Follow(lawn, m, "F" + rest) == Follow(lawn, m, rest)
  {
    assert ("F" + rest)[0] == 'F';
    assert ("F" + rest)[1..] == rest;
    StepDiscardsEscapes(lawn, m, 'F');
  }

  /** Every mower Execute reports is on the lawn, and the k-th one comes from the k-th block. */
  lemma RunKeepsOrderAndBounds(lawnLine: string, lines: seq<string>)
    ensures var r := Run(lawnLine, lines);
      r.Success? ==> forall k :: 0 <= k < |r.value| ==>
        ProcessMower(ReadLawnDimensions(lawnLine).value, HeaderAt(lines, k), InstructionsAt(lines, k)) == Success(r.value[k]) &&
        Contains(ReadLawnDimensions(lawnLine).value, r.value[k])
  {
    var r := Run(lawnLine, lines);
    if r.Success? {
      var lawn := ReadLawnDimensions(lawnLine).value;
      ProcessAllInOrder(OnLawn(lawn), lines);
      forall k | 0 <= k < |r.value|
        ensures ProcessMower(lawn, HeaderAt(lines, k), InstructionsAt(lines, k)) == Success(r.value[k])
      {
        assert Block(OnLawn(lawn), lines, k) == Success(r.value[k]);
      }
    }
  }

  /**
   * Execute fails exactly when the lawn line is rejected or some block
   * fails, and then with the lawn error or the first failing block's error.
   */
  lemma RunFailsAtFirstError(lawnLine: string, lines: seq<string>)
    ensures var r := Run(lawnLine, lines);
      var dims := ReadLawnDimensions(lawnLine);
      (dims.Failure? ==> r == Failure(WrongLawnDimensions)) &&
      (dims.Success? ==>
        (r.Success? <==> forall k :: 0 <= k < BlockCount(lines) ==>
                           ProcessMower(dims.value, HeaderAt(lines, k), InstructionsAt(lines, k)).Success?) &&
        (r.Failure? ==> exists k :: 0 <= k < BlockCount(lines) &&
                           ProcessMower(dims.value, HeaderAt(lines, k), InstructionsAt(lines, k)) == Failure(r.error) &&
                           forall j :: 0 <= j < k ==>
                             ProcessMower(dims.value, HeaderAt(lines, j), InstructionsAt(lines, j)).Success?))
  {
    var dims := ReadLawnDimensions(lawnLine);
    if dims.Success? {
      var p := OnLawn(dims.value);
      ProcessAllSucceeds(p, lines);
      ProcessAllFirstError(p, lines);
      assert forall k :: 0 <= k < BlockCount(lines) ==>
        Block(p, lines, k) == ProcessMower(dims.value, HeaderAt(lines, k), InstructionsAt(lines, k));
    }
  }

  /** The shape of a header line with single-digit coordinates. */
  lemma SingleDigitLayout(x: int64, y: int64, o: Orientation)
    requires 0 <= x <= 9 && 0 <= y <= 9 && Cardinal(o)
    ensures var header := FormatInt(x as int) + " " + FormatInt(y as int) + " " + OrientationText(o);
      |header| == 5 && header[4..5] == OrientationText(o) &&
      header == FormatInt(x as int) + " " + FormatInt(y as int) + (" " + OrientationText(o))
  {
    assert |FormatInt(x as int)| == 1 && |FormatInt(y as int)| == 1;
  }

  /**
   * With single-digit coordinates the character at index 4 is the
   * orientation letter, so a header line reads as the mower it describes.
   */
  lemma SingleDigitHeader(x: int64, y: int64, o: Orientation)
    requires 0 <= x <= 9 && 0 <= y <= 9 && Cardinal(o)
    ensures var header := FormatInt(x as int) + " " + FormatInt(y as int) + " " + OrientationText(o);
      |header| == 5 && InitialMower(header) == Mower(x, y, o)
  {
    var header := FormatInt(x as int) + " " + FormatInt(y as int) + " " + OrientationText(o);
    SingleDigitLayout(x, y, o);
    ScanPairRoundTrip(x, y, " " + OrientationText(o));
    ParseOrientationRoundTrip(o);
    assert ParseOrientation(header[4..5]) == o;
  }
}
